=== FILE: README.md ===
# rescorder batch recorder — a Dafny model of `csv.ts`

The recorder reads a batch list: a CSV file with a header line, then one line per capture job (`campaign,display,content,duration,rate`). It runs each job in turn. For one job it:

- loads a page;
- arms one screenshot slot per frame;
- waits for all of them;
- writes the frames that produced bytes into a staging directory as `frame_0000.png`, `frame_0001.png`, and so on;
- hands ffmpeg a command line that encodes them into `output/<job>.mp4`.

This project models the deterministic core of that program. It is in four modules:

- `Text` (`text.dfy`): the JavaScript string operations the core relies on, written out and specified:
  - `trim`, with the ECMAScript white-space and line-terminator set;
  - `split` and `join` on one character;
  - `Number.prototype.toString` for whole numbers;
  - `padStart`;
  - the order of `<` on strings, compared character by character.
- `Csv` (`csv.dfy`): `parseCsv`, as a method with the source's loop and `continue`. It is proved against a specification built line by line. A writer for the format makes the round trip `parse(write(records)) == records` provable.
- `Naming` (`naming.dfy`): the job name, the zero-padded frame file name, the staging and output paths, and the ffmpeg command string. It also gives a reference definition of printf's `%04d` substitution. With it, the quoted `-i` text of the command string, directory included, can be shown to name exactly the staged files when the directory holds no `%`. The shell that runs the command is not modelled (see "## Left out").
- `Capture` (`capture.dfy`): the frame count, the slot loop, `Promise.all` collecting results in slot order whatever order they complete in, the staging loop that counts `validFrames`, and one whole job as `ProcessRecord`.

## Model

| member | source | states |
|---|---|---|
| Text.Trim | csv.ts:140 | the trimmed string neither starts nor ends with white space |
| Text.TrimSlice | csv.ts:140 | trimming removes white space at the two ends and only there: the result is a contiguous slice of the input, and everything cut off before and after it is white space |
| Text.BlankIffAllSpace | csv.ts:145-146 | a line trims to `''` exactly when every character of it is white space |
| Text.TrimKeepsCharacters | csv.ts:145 | trimming only removes characters: anything in the trimmed line was in the raw line |
| Text.Split | csv.ts:140 | splitting always gives at least one piece, so the empty text gives `[""]` |
| Text.SplitFacts | csv.ts:140 | no piece holds the separator, and joining the pieces with the separator gives the input back |
| Text.SplitOfJoin | csv.ts:148 | splitting a join of separator-free pieces gives exactly those pieces back |
| Text.NatToString | csv.ts:98 | `toString` of a whole number gives at least one digit, all digits, reads back as the number, and has no leading zero unless the number is 0 |
| Text.NatToStringLength | csv.ts:98 | a number below 10^k has at most k digits |
| Text.PadStart | csv.ts:98 | `padStart` never truncates: the result is `max(width, length)` long and ends with the input, preceded only by fill characters |
| Text.ZeroPaddedValue | csv.ts:98 | zero-padding a digit string keeps it all digits and keeps its value |
| Text.LexLessDigits | csv.ts:98 | for digit strings of equal length, string order is numeric order, in both directions |
| Csv.Field | csv.ts:148-155 | definition: piece k of the comma split, trimmed, or `""` when the line has fewer pieces |
| Csv.FieldFacts | csv.ts:151-155 | each field taken from a piece (or `""` when the piece is missing) is trimmed and comma-free, and has no line break when the line has none |
| Csv.RecordOf | csv.ts:148-156 | a record built from one line has five trimmed, comma-free fields, none holding a line break when the line has none |
| Csv.LineRecords | csv.ts:145-156 | definition: a raw line is trimmed; a blank one gives no record, any other one gives the record of its fields |
| Csv.Records | csv.ts:144-157 | a run of data lines yields at most one record per line |
| Csv.DataLines | csv.ts:139-143 | definition: the lines of the trimmed text, split on `\n`, after the first (header) line |
| Csv.ParseCsv | csv.ts:137-164 | a read failure gives no records; otherwise the records are those of the data lines, in line order, one per non-blank line and none per blank line |
| Csv.HeaderOnlyYieldsNothing | csv.ts:139-143 | an empty list, or one whose trimmed text is a single line, yields no records |
| Csv.HeaderDropped | csv.ts:140-143 | whatever the first line of the trimmed text holds, it is dropped; the data lines are the lines after it |
| Csv.RecordsConcat | csv.ts:144-157 | the records of two runs of lines are the records of the first run followed by those of the second: order is kept and each line contributes independently |
| Csv.RecordsOfLine | csv.ts:145-156 | a blank line yields no record, and any other line yields exactly the record of its trimmed text |
| Csv.RecordsClean | csv.ts:145-155 | every record drawn from lines without line breaks has trimmed, comma-free fields without line breaks |
| Csv.ParsedRecordsClean | csv.ts:137-157 | every record the parser returns has trimmed, comma-free fields without line breaks, so a trailing `\r` never survives |
| Csv.FormatRecordParsesBack | csv.ts:148-156 | a record whose fields are trimmed, comma-free and single-line parses back from its comma-joined line unchanged |
| Csv.RecordsOfFormatted | csv.ts:144-157 | the lines written for such records parse back to exactly those records |
| Csv.ParseOfUnparse | csv.ts:137-164 | writing a header and such records one per line, then parsing the text, gives back exactly the records |
| Naming.JobName | csv.ts:22 | definition: campaign, display and content joined by `_` |
| Naming.JobNameParts | csv.ts:22 | when no part holds `_`, the job name splits on `_` back into campaign, display and content |
| Naming.PaddedIndex | csv.ts:98 | definition: `index.toString().padStart(4, '0')` |
| Naming.PaddedIndexFacts | csv.ts:98 | the padded frame index is all digits, reads back as the index, has at least four digits, and has exactly four below 10000 |
| Naming.FrameFileName | csv.ts:98 | definition: `frame_`, the padded index, `.png` |
| Naming.FrameFileNameLength | csv.ts:98 | below 10000 every frame file name is 14 characters long |
| Naming.FrameFileNameInjective | csv.ts:98 | two frames share a file name only when their indices are equal |
| Naming.FrameFileNameOrder | csv.ts:98 | below 10000, one frame name sorts before another exactly when its index is smaller |
| Naming.ZeroFilledIsPadded | csv.ts:114 | printf's `%0<width>d` of a number equals its `toString` padded with `'0'` to that width, for every number and width |
| Naming.PatternNamesStagedFrame | csv.ts:114 | expanding the input pattern `frame_%04d.png` with frame number i gives the name frame i is staged under, for every i |
| Naming.StagingDir | csv.ts:41 | definition: `<cwd>/temp_frames/<job name>` |
| Naming.OutputPath | csv.ts:106-109 | definition: `<cwd>/output/<job name>.mp4` |
| Naming.FramePath | csv.ts:98 | definition: the frame file name inside the staging directory |
| Naming.FramePathInjective | csv.ts:98-99 | two frames are written to the same path exactly when they are the same frame, so no staged frame overwrites another |
| Naming.StagingDirWithoutPercent | csv.ts:41 | the staging directory is free of `%` exactly when the working directory and the job name are |
| Naming.InputPatternNamesFramePath | csv.ts:98-114 | when the staging directory holds no `%`, the whole `-i` argument (directory and `frame_%04d.png`), expanded with frame number i, is the path frame i is written to |
| Naming.PercentInDirectoryMisnames | csv.ts:114 | under the model's expansion, a `%04d` in the staging directory is expanded too, so the argument no longer names the staged frame |
| Naming.EncodeParts | csv.ts:110-118 | definition: the eight parts of the command, in the source's order |
| Naming.EncodeCommand | csv.ts:110-119 | definition: the eight parts joined by single spaces |
| Naming.EncodeCommandJoinsWords | csv.ts:110-119 | the command string, built from its eight parts, is the thirteen words joined by single spaces |
| Naming.EncodeCommandWords | csv.ts:110-119 | when the binary and the paths hold no space, the command splits on spaces into exactly these words in this order: quoted binary, `-y`, `-framerate`, the rate, `-i`, the quoted input pattern inside the staging directory, `-c:v`, `libx264`, `-pix_fmt`, `yuv420p`, `-crf`, `23`, and the quoted output path |
| Capture.Seconds | csv.ts:60 | the rounded-up seconds are the least whole number of seconds covering the duration |
| Capture.FrameCount | csv.ts:60 | definition: `Math.ceil(duration / 1000) * rate`, as whole seconds times the rate |
| Capture.FrameCountMultiple | csv.ts:60 | with a positive rate, the frame count is a multiple of the rate: exactly the whole seconds times the rate |
| Capture.FrameCountCovers | csv.ts:60 | the frames at the given rate cover the whole duration and overshoot it by less than one second's worth |
| Capture.FrameCountZero | csv.ts:60 | the frame count is zero exactly when the duration or the rate is zero |
| Capture.NominalOffset | csv.ts:61-88 | definition: `i * (1000 / rate)` milliseconds, over exact reals |
| Capture.NominalOffsetFacts | csv.ts:61-88 | slot 0 fires at once; consecutive slots fire one frame interval (1000 / rate ms) apart, in increasing order; every slot of the job fires before the rounded-up duration has passed |
| Capture.ArmSlots | csv.ts:79-91 | exactly frame-count slots are armed, in index order, slot i for frame i at its nominal offset of i frame intervals |
| Capture.AwaitAll | csv.ts:93 | whatever order the slots complete in, result i is the value of slot i and there is one result per slot |
| Capture.NonEmptyIndices | csv.ts:96-97 | definition: the indices, in increasing order, of the results whose length is positive |
| Capture.NonEmptyIndicesFacts | csv.ts:96-102 | the indices staged are exactly those of the results holding bytes: each in range and non-empty, strictly increasing, and none missing |
| Capture.StageFrames | csv.ts:94-102 | the writes are exactly the non-empty results, in index order, each under the frame name of its own index; `validFrames` is the number of writes |
| Capture.SlotStagedIffCaptured | csv.ts:80-102 | a slot whose capture failed, or produced no bytes, has no file written under its frame's path; a slot whose capture produced bytes has exactly those bytes written under its frame's path, whatever the other slots produced |
| Capture.AllNonEmptyStaged | csv.ts:96-102 | when every capture produced bytes, every index 0, 1, … is staged, in order |
| Capture.StagedPathsSorted | csv.ts:98 | with at most 10000 frames, the staged paths in write order are in increasing string order |
| Capture.InputPatternNamesStagedFrames | csv.ts:98-114 | when the staging directory holds no `%`, every staged file is the path that the quoted `-i` text of the command string, directory included, names for that frame |
| Capture.ProcessRecord | csv.ts:20-119 | one job is named `campaign_display_content`. It stages under `temp_frames/<name>` and writes `output/<name>.mp4`. It arms one slot per frame of the frame count, slot i at its nominal offset. It writes exactly the non-empty results, in index order, each under the frame path of its own index, so `validFrames` is at most the frame count. When neither the working directory nor the job name holds `%`, each written path is the quoted `-i` text of the command string expanded with that index. It encodes with the command built from the binary, the rate and those two paths |

## Left out

- Reading the list file is left out. The model takes its outcome as input: the text, or a read failure. A failure yields no records, because that is what the catch block returns.
- Capture.ProcessRecord: `Number(...)` of the duration and rate strings is not modelled; the job takes both as natural numbers. Fractional, negative, empty and non-numeric values, and the NaN they would give, are out of the model.
- Browser launch, navigation, the body rectangle (`Math.round` over floating point) and the screenshot call are left out. Each capture is an input: the bytes it produced, or a failure.
- Capture.NominalOffsetFacts: the delays are exact reals. The IEEE rounding of `1000 / rate` and `i * frameDuration` is not modelled.
- `setTimeout` timing and overlapping captures are not modelled. Only the order in which slots settle is an input.
- Capture.AwaitAll: requires every slot to settle. A slot that never settles would leave `Promise.all` waiting forever, which the model does not capture.
- The filesystem effects are modelled as data: `mkdir`, `rm` and the `finally` cleanup are left out, and file writes become a returned list of (path, bytes) writes.
- Capture.ProcessRecord and Capture.StageFrames: every step of the job is taken to succeed. In the source, a failed navigation, a throwing `mkdir` or `writeFileSync`, or a non-zero exit of the encoder ends the job at that step through its `catch` block. Later frames are then not written and nothing is encoded. The model does not capture that.
- Naming.InputPatternNamesFramePath: holds only when the staging directory has no `%`. A `%` in the working directory or in campaign, display or content is read by the encoder too. A `%%` there names a path with a single `%`, so the encoder reads other files than the staged ones. A second conversion such as `%04d` makes the encoder reject the pattern. Under the model's expansion, which gives meaning to `%04d` alone, such a `%04d` is expanded instead (Naming.PercentInDirectoryMisnames).
- Only the path the quoted `-i` text names for each frame number is modelled, not which frames ffmpeg actually reads. Gaps left by failed captures are not renumbered, and which staged frames the encoder then takes is ffmpeg's behaviour and is not modelled.
- Capture.ProcessRecord: the command string is run by `execSync` through `/bin/sh`, which is not modelled. Inside the double quotes, a `"`, `$`, `` ` `` or `\` in the working directory or in campaign, display or content keeps its shell meaning. It then changes the argument ffmpeg receives, and the encoder can read other paths than the staged frames. The model's claims are about the command string, not about what the shell passes on.
- `execSync` and ffmpeg's own behaviour are left out. Only the command string and the name its input pattern expands to are modelled. Of printf's conversions, only `%04d` is given meaning.
- `path.join` is modelled as `dir + "/" + file`. Its normalisation of `.`, `..` and repeated slashes is left out.
- Strings are sequences of Unicode characters, not UTF-16 code units. String order is compared character by character. For the digit and ASCII names it is applied to, this agrees with code-unit order.
- Text.NatToString: gives plain decimal digits. JavaScript's exponent form for numbers of 10^21 and above is not modelled.
- The path of the ffmpeg binary is taken as a given string. The case where the package provides no binary (`null`) is not modelled.
- Console logging, the URL, `Bun.argv`, the top-level `main` loop over records and its error handling are I/O and are left out.
- The other source file, `index.ts`, is not part of this model: it only hands a page to a screen-recorder library.

=== FILE: capture.dfy ===
/** One recording job: how many frames it takes, the capture slot armed for
    each frame, the results collected in slot order, the frames staged on
    disk and the encoder command that turns them into a video. */
module Capture {
  import opened Text
  import opened Csv
  import opened Naming

  newtype byte = x: int | 0 <= x < 256

  // ---------------------------------------------------------------------
  // Frame count
  // ---------------------------------------------------------------------

  /** The duration in milliseconds rounded up to whole seconds. */
  function Seconds(duration: nat): (s: nat)
    ensures s * 1000 >= duration
    ensures s == 0 || (s - 1) * 1000 < duration
  {
    (duration + 999) / 1000
  }

  /** Frames to capture: whole seconds times frames per second. */
  function FrameCount(duration: nat, rate: nat): nat {
    Seconds(duration) * rate
  }

  /** The count is a whole number of seconds' worth of frames. */
  lemma FrameCountMultiple(duration: nat, rate: nat)
    requires rate > 0
    ensures FrameCount(duration, rate) % rate == 0
    ensures FrameCount(duration, rate) / rate == Seconds(duration)
  {
    ExactQuotient(Seconds(duration), rate);
  }

  /** Dividing a multiple of c by c leaves no remainder. */
  lemma ExactQuotient(s: nat, c: nat)
    requires c > 0
    ensures (s * c) % c == 0 && (s * c) / c == s
  {
    var f := s * c;
    var q, m := f / c, f % c;
    assert f == q * c + m && 0 <= m < c;
    MultiplyMonotone(q + 1, s, c);
    MultiplyMonotone(s + 1, q, c);
    assert (q + 1) * c == q * c + c;
    assert (s + 1) * c == s * c + c;
  }

  /** The frames cover the whole duration and overshoot it by less than one
      second's worth. */
  lemma FrameCountCovers(duration: nat, rate: nat)
    ensures FrameCount(duration, rate) * 1000 >= duration * rate
    ensures rate > 0 ==> FrameCount(duration, rate) * 1000 < duration * rate + 1000 * rate
  {
    var s := Seconds(duration);
    var f := FrameCount(duration, rate);
    assert f * 1000 == (s * 1000) * rate;
    MultiplyMonotone(duration, s * 1000, rate);
    if s > 0 {
      if rate > 0 {
        MultiplyStrict((s - 1) * 1000, duration, rate);
      }
      assert ((s - 1) * 1000) * rate == (s * 1000) * rate - 1000 * rate;
    }
  }

  /** No frames exactly when the duration or the rate is zero. */
  lemma FrameCountZero(duration: nat, rate: nat)
    ensures FrameCount(duration, rate) == 0 <==> duration == 0 || rate == 0
  {
    var s := Seconds(duration);
    assert s == 0 <==> duration == 0;
    if s > 0 && rate > 0 {
      MultiplyStrict(0, s, rate);
    }
  }

  lemma MultiplyMonotone(a: nat, b: nat, c: nat)
    ensures a <= b ==> a * c <= b * c
  {
  }

  lemma MultiplyStrict(a: nat, b: nat, c: nat)
    requires a < b && c > 0
    ensures a * c < b * c
  {
  }

  // ---------------------------------------------------------------------
  // Capture slots
  // ---------------------------------------------------------------------

  /** When slot i fires, in milliseconds after the slots are armed: i frame
      intervals of 1000 / rate each, over exact reals. */
  function NominalOffset(i: nat, rate: nat): real
    requires rate > 0
  {
    i as real * (1000.0 / rate as real)
  }

  /** Slots fire one frame interval apart, the first at once, and every slot
      of the job fires before its whole seconds have passed. */
  lemma NominalOffsetFacts(i: nat, duration: nat, rate: nat)
    requires rate > 0
    ensures NominalOffset(0, rate) == 0.0
    ensures NominalOffset(i + 1, rate) - NominalOffset(i, rate) == 1000.0 / rate as real
    ensures NominalOffset(i, rate) < NominalOffset(i + 1, rate)
    ensures i < FrameCount(duration, rate) ==>
      NominalOffset(i, rate) < (Seconds(duration) * 1000) as real
  {
    var step := 1000.0 / rate as real;
    assert step > 0.0;
    assert NominalOffset(i, rate) * rate as real == (i * 1000) as real;
    if i < FrameCount(duration, rate) {
      var s := Seconds(duration);
      assert i + 1 <= s * rate;
      assert (i * 1000) as real < (s * rate * 1000) as real;
      assert (s * rate * 1000) as real == (s * 1000) as real * rate as real;
      OffsetBelow(NominalOffset(i, rate), (s * 1000) as real, rate as real);
    }
  }

  lemma OffsetBelow(x: real, bound: real, r: real)
    requires r > 0.0 && x * r < bound * r
    ensures x < bound
  {
  }

  /** A capture slot: the frame index it captures and when it fires. */
  datatype Slot = Slot(index: nat, delay: real)

  /** Arms one capture slot per frame, in index order, each firing at its
      frame's nominal offset. */
  method ArmSlots(duration: nat, rate: nat) returns (slots: seq<Slot>)
    ensures |slots| == FrameCount(duration, rate)
    ensures slots != [] ==> rate > 0
    ensures forall i :: 0 <= i < |slots| ==> slots[i] == Slot(i, NominalOffset(i, rate))
  {
    var frameCount := FrameCount(duration, rate);
    slots := [];
    var i := 0;
    while i < frameCount
      invariant i <= frameCount
      invariant |slots| == i
      invariant i > 0 ==> rate > 0
      invariant forall k :: 0 <= k < i ==> slots[k] == Slot(k, NominalOffset(k, rate))
    {
      assert rate == 0 ==> frameCount == 0;
      slots := slots + [Slot(i, NominalOffset(i, rate))];
      i := i + 1;
    }
  }

  /** What one capture produced: the PNG bytes, or a failure. */
  datatype CaptureOutcome = Captured(png: seq<byte>) | Failed

  /** What a slot resolves with: the bytes, or no bytes when the capture
      failed, so a failure never rejects the slot. */
  function SlotValue(outcome: CaptureOutcome): seq<byte> {
    match outcome
    case Captured(png) => png
    case Failed => []
  }

  /** The value of every slot, in slot order. */
  function SlotValues(outcomes: seq<CaptureOutcome>): seq<seq<byte>> {
    seq(|outcomes|, k requires 0 <= k < |outcomes| => SlotValue(outcomes[k]))
  }

  /** Every slot appears among the completion events, each of which names a
      slot. */
  predicate CompletionOrder(completion: seq<nat>, n: nat) {
    (forall j :: 0 <= j < |completion| ==> completion[j] < n) &&
    (forall k :: 0 <= k < n ==> k in completion)
  }

  /** Waits for every slot. Slots settle in the order `completion` gives;
      `outcomes[k]` is what the capture of slot k produced. The results come
      back in slot order whatever the completion order was. */
  method AwaitAll(slots: seq<Slot>, outcomes: seq<CaptureOutcome>, completion: seq<nat>)
    returns (screenshots: seq<seq<byte>>)
    requires |outcomes| == |slots|
    requires CompletionOrder(completion, |slots|)
    ensures |screenshots| == |slots|
    ensures forall k :: 0 <= k < |slots| ==> screenshots[k] == SlotValue(outcomes[k])
  {
    var results := new seq<byte>[|slots|](_ => []);
    for j := 0 to |completion|
      invariant forall k :: 0 <= k < |slots| && k in completion[..j] ==>
        results[k] == SlotValue(outcomes[k])
    {
      var k := completion[j];
      results[k] := SlotValue(outcomes[k]);
    }
    assert completion[..|completion|] == completion;
    screenshots := results[..];
  }

  // ---------------------------------------------------------------------
  // Staging
  // ---------------------------------------------------------------------

  /** The indices, in increasing order, of the results that hold bytes. */
  function NonEmptyIndices(s: seq<seq<byte>>): (idx: seq<nat>)
    ensures |idx| <= |s|
  {
    if s == [] then []
    else
      var rest := NonEmptyIndices(s[..|s| - 1]);
      if |s[|s| - 1]| > 0 then rest + [|s| - 1] else rest
  }

  /** The indices are exactly those of the results that hold bytes, each
      once, in increasing order. */
  lemma {:induction false} NonEmptyIndicesFacts(s: seq<seq<byte>>)
    ensures var idx := NonEmptyIndices(s);
      (forall k :: 0 <= k < |idx| ==> idx[k] < |s| && |s[idx[k]]| > 0) &&
      (forall k, l :: 0 <= k < l < |idx| ==> idx[k] < idx[l]) &&
      (forall i :: 0 <= i < |s| && |s[i]| > 0 ==> i in idx)
  {
    if s != [] {
      var last := |s| - 1;
      var init := s[..last];
      var rest := NonEmptyIndices(init);
      var idx := NonEmptyIndices(s);
      NonEmptyIndicesFacts(init);
      assert idx == rest + (if |s[last]| > 0 then [last] else []);
      forall k | 0 <= k < |idx| ensures idx[k] < |s| && |s[idx[k]]| > 0 {
        if k < |rest| {
          assert idx[k] == rest[k] && init[rest[k]] == s[rest[k]];
        }
      }
      forall k, l | 0 <= k < l < |idx| ensures idx[k] < idx[l] {
        if l < |rest| {
          assert idx[k] == rest[k] && idx[l] == rest[l];
        } else {
          assert idx[k] == rest[k] < |init|;
        }
      }
      forall i | 0 <= i < |s| && |s[i]| > 0 ensures i in idx {
        if i < last {
          assert init[i] == s[i] && i in rest;
        }
      }
    }
  }

  lemma NonEmptyIndicesSnoc(s: seq<seq<byte>>, i: nat)
    requires i < |s|
    ensures NonEmptyIndices(s[..i + 1]) ==
      NonEmptyIndices(s[..i]) + (if |s[i]| > 0 then [i] else [])
  {
    assert s[..i + 1][..i] == s[..i];
  }

  /** One file written: its path and its bytes. */
  datatype FileWrite = FileWrite(path: string, data: seq<byte>)

  /** `writes` writes, in order, result `idx[k]` under the name of its
      index inside `dir`. */
  predicate WritesAt(dir: string, s: seq<seq<byte>>, idx: seq<nat>, writes: seq<FileWrite>) {
    |writes| == |idx| &&
    forall k :: 0 <= k < |idx| ==>
      idx[k] < |s| && writes[k] == FileWrite(FramePath(dir, idx[k]), s[idx[k]])
  }

  /** Staging result `index` extends the writes for the results before it
      to the writes for the results up to and including it. */
  lemma StageStep(dir: string, s: seq<seq<byte>>, index: nat, writes: seq<FileWrite>)
    requires index < |s|
    requires WritesAt(dir, s, NonEmptyIndices(s[..index]), writes)
    ensures |s[index]| > 0 ==>
      WritesAt(dir, s, NonEmptyIndices(s[..index + 1]), writes + [FileWrite(FramePath(dir, index), s[index])])
    ensures |s[index]| == 0 ==> WritesAt(dir, s, NonEmptyIndices(s[..index + 1]), writes)
  {
    var idx := NonEmptyIndices(s[..index]);
    NonEmptyIndicesSnoc(s, index);
    if |s[index]| > 0 {
      WritesAtSnoc(dir, s, idx, writes, index);
    }
  }

  lemma WritesAtSnoc(dir: string, s: seq<seq<byte>>, idx: seq<nat>, writes: seq<FileWrite>, i: nat)
    requires WritesAt(dir, s, idx, writes) && i < |s|
    ensures WritesAt(dir, s, idx + [i], writes + [FileWrite(FramePath(dir, i), s[i])])
  {
  }

  /** Writes every result that holds bytes under the name of its own index,
      in index order, and counts the writes. */
  method StageFrames(dir: string, screenshots: seq<seq<byte>>)
    returns (writes: seq<FileWrite>, validFrames: nat)
    ensures validFrames == |writes| == |NonEmptyIndices(screenshots)|
    ensures WritesAt(dir, screenshots, NonEmptyIndices(screenshots), writes)
  {
    writes, validFrames := [], 0;
    for index := 0 to |screenshots|
      invariant validFrames == |writes|
      invariant WritesAt(dir, screenshots, NonEmptyIndices(screenshots[..index]), writes)
    {
      var screenshot := screenshots[index];
      StageStep(dir, screenshots, index, writes);
      if |screenshot| > 0 {
        writes := writes + [FileWrite(FramePath(dir, index), screenshot)];
        validFrames := validFrames + 1;
      }
    }
    assert screenshots[..|screenshots|] == screenshots;
  }

  /** When every capture produced bytes, every index is staged. */
  lemma {:induction false} AllNonEmptyStaged(s: seq<seq<byte>>)
    requires forall i :: 0 <= i < |s| ==> |s[i]| > 0
    ensures |NonEmptyIndices(s)| == |s|
    ensures forall k :: 0 <= k < |s| ==> NonEmptyIndices(s)[k] == k
  {
    if s != [] {
      AllNonEmptyStaged(s[..|s| - 1]);
    }
  }

  /** Up to 10000 frames, the staged paths in write order are in increasing
      string order. */
  lemma StagedPathsSorted(dir: string, s: seq<seq<byte>>, k: nat, l: nat)
    requires |s| <= 10000
    requires k < l < |NonEmptyIndices(s)|
    ensures LexLess(FramePath(dir, NonEmptyIndices(s)[k]), FramePath(dir, NonEmptyIndices(s)[l]))
  {
    var i, j := NonEmptyIndices(s)[k], NonEmptyIndices(s)[l];
    NonEmptyIndicesFacts(s);
    FrameFileNameOrder(i, j);
    assert FramePath(dir, i) == (dir + "/") + FrameFileName(i);
    assert FramePath(dir, j) == (dir + "/") + FrameFileName(j);
    LexLessCommonPrefix(dir + "/", FrameFileName(i), FrameFileName(j));
  }

  /** A slot whose capture failed or produced no bytes leaves no file under
      its frame's name. A slot whose capture produced bytes has exactly
      those bytes written under its frame's name, whatever the other slots
      produced. */
  lemma SlotStagedIffCaptured(dir: string, outcomes: seq<CaptureOutcome>, writes: seq<FileWrite>, i: nat)
    requires WritesAt(dir, SlotValues(outcomes), NonEmptyIndices(SlotValues(outcomes)), writes)
    requires i < |outcomes|
    ensures outcomes[i].Failed? || outcomes[i].png == [] ==>
      forall k :: 0 <= k < |writes| ==> writes[k].path != FramePath(dir, i)
    ensures outcomes[i].Captured? && outcomes[i].png != [] ==>
      exists k :: 0 <= k < |writes| && writes[k] == FileWrite(FramePath(dir, i), outcomes[i].png)
  {
    var values := SlotValues(outcomes);
    var idx := NonEmptyIndices(values);
    NonEmptyIndicesFacts(values);
    if outcomes[i].Failed? || outcomes[i].png == [] {
      forall k | 0 <= k < |writes| ensures writes[k].path != FramePath(dir, i) {
        assert values[i] == [] && |values[idx[k]]| > 0;
        FramePathInjective(dir, idx[k], i);
      }
    } else {
      assert |values[i]| > 0;
      assert i in idx;
      var k :| 0 <= k < |idx| && idx[k] == i;
      assert writes[k] == FileWrite(FramePath(dir, i), outcomes[i].png);
    }
  }

  /** When the staging directory holds no `%`, every staged file is the file
      that the quoted `-i` text of the command string names for that frame. */
  lemma InputPatternNamesStagedFrames(dir: string, s: seq<seq<byte>>, idx: seq<nat>, writes: seq<FileWrite>)
    requires '%' !in dir
    requires WritesAt(dir, s, idx, writes)
    ensures forall k :: 0 <= k < |writes| ==>
      idx[k] < |s| && writes[k] == FileWrite(ExpandPattern(JoinPath(dir, FramePattern), idx[k]), s[idx[k]])
  {
    forall k | 0 <= k < |writes|
      ensures writes[k].path == ExpandPattern(JoinPath(dir, FramePattern), idx[k])
    {
      InputPatternNamesFramePath(dir, idx[k]);
    }
  }

  // ---------------------------------------------------------------------
  // One job
  // ---------------------------------------------------------------------

  /** Everything one job derives and does, short of running the encoder. */
  datatype JobPlan = JobPlan(
    name: string,
    stagingDir: string,
    frameCount: nat,
    slots: seq<Slot>,
    writes: seq<FileWrite>,
    validFrames: nat,
    outputPath: string,
    command: string)

  /** Runs one job: names it, arms one slot per frame, waits for the
      results, stages the frames that hold bytes and assembles the encoder
      command. `duration` and `rate` are the record's numbers, `cwd` the
      working directory, `encoder` the encoder binary, `outcomes` and
      `completion` what the captures produced and the order they settled. */
  method ProcessRecord(record: CsvRecord, duration: nat, rate: nat, cwd: string, encoder: string,
                       outcomes: seq<CaptureOutcome>, completion: seq<nat>)
    returns (plan: JobPlan)
    requires |outcomes| == FrameCount(duration, rate)
    requires CompletionOrder(completion, FrameCount(duration, rate))
    ensures plan.name == JobName(record)
    ensures plan.stagingDir == StagingDir(cwd, plan.name)
    ensures plan.outputPath == OutputPath(cwd, plan.name)
    ensures plan.frameCount == FrameCount(duration, rate) == |plan.slots|
    ensures plan.slots != [] ==> rate > 0
    ensures forall i :: 0 <= i < |plan.slots| ==> plan.slots[i] == Slot(i, NominalOffset(i, rate))
    ensures plan.validFrames == |plan.writes| <= plan.frameCount
    ensures WritesAt(plan.stagingDir, SlotValues(outcomes), NonEmptyIndices(SlotValues(outcomes)), plan.writes)
    ensures '%' !in cwd && '%' !in plan.name ==>
      var idx := NonEmptyIndices(SlotValues(outcomes));
      forall k :: 0 <= k < |plan.writes| ==>
        idx[k] < |outcomes| &&
        plan.writes[k].path == ExpandPattern(JoinPath(plan.stagingDir, FramePattern), idx[k])
    ensures plan.command == EncodeCommand(encoder, rate, plan.stagingDir, plan.outputPath)
  {
    var name := JobName(record);
    var stagingDir := StagingDir(cwd, name);
    var frameCount := FrameCount(duration, rate);
    var slots := ArmSlots(duration, rate);
    var screenshots := AwaitAll(slots, outcomes, completion);
    var values := SlotValues(outcomes);
    assert screenshots == values;
    var writes, validFrames := StageFrames(stagingDir, screenshots);
    var idx := NonEmptyIndices(values);
    StagingDirWithoutPercent(cwd, name);
    if '%' !in cwd && '%' !in name {
      InputPatternNamesStagedFrames(stagingDir, values, idx, writes);
    }
    var outputPath := OutputPath(cwd, name);
    var command := EncodeCommand(encoder, rate, stagingDir, outputPath);
    plan := JobPlan(name, stagingDir, frameCount, slots, writes, validFrames, outputPath, command);
  }
}

=== FILE: csv.dfy ===
/** The batch list of the recorder: a header line, then one capture job per
    non-blank line, five comma-separated fields each. The parser is a plain
    comma split; quoted fields are not recognised. */
module Csv {
  import opened Text

  /** One capture job as read from the list; every field is still text. */
  datatype CsvRecord = CsvRecord(
    campaign: string,
    display: string,
    content: string,
    duration: string,
    rate: string)

  /** What reading the list file gives back: its text, or a failure. */
  datatype FileRead = Contents(text: string) | ReadError

  function Fields(r: CsvRecord): seq<string> {
    [r.campaign, r.display, r.content, r.duration, r.rate]
  }

  /** A value the parser can produce: trimmed and free of commas. */
  predicate CleanField(f: string) {
    ',' !in f && Trimmed(f)
  }

  predicate CleanRecord(r: CsvRecord) {
    CleanField(r.campaign) && CleanField(r.display) && CleanField(r.content) &&
    CleanField(r.duration) && CleanField(r.rate)
  }

  /** No field holds a line break. */
  predicate SingleLine(r: CsvRecord) {
    '\n' !in r.campaign && '\n' !in r.display && '\n' !in r.content &&
    '\n' !in r.duration && '\n' !in r.rate
  }

  /** The i-th piece of a line, trimmed, or "" when the line has fewer pieces. */
  function Field(pieces: seq<string>, i: nat): string {
    if i < |pieces| then Trim(pieces[i]) else ""
  }

  lemma FieldFacts(line: string, i: nat)
    ensures CleanField(Field(Split(line, ','), i))
    ensures '\n' !in line ==> '\n' !in Field(Split(line, ','), i)
  {
    var pieces := Split(line, ',');
    SplitFacts(line, ',');
    if i < |pieces| {
      if ',' in Trim(pieces[i]) {
        TrimKeepsCharacters(pieces[i], ',');
      }
      if '\n' in Trim(pieces[i]) {
        TrimKeepsCharacters(pieces[i], '\n');
        JoinContainsPart(pieces, ',', i, '\n');
      }
    }
  }

  lemma {:induction false} JoinContainsPart(parts: seq<string>, sep: char, i: nat, c: char)
    requires i < |parts| && c in parts[i]
    ensures c in Join(parts, sep)
    decreases |parts|
  {
    if i > 0 {
      JoinContainsPart(parts[1..], sep, i - 1, c);
    }
  }

  /** One data line: split on ',', the first five pieces trimmed, missing
      ones empty. No field holds a comma or surrounding white space, and no
      field holds a line break the line did not hold. */
  function RecordOf(line: string): (r: CsvRecord)
    ensures CleanRecord(r)
    ensures '\n' !in line ==> SingleLine(r)
  {
    var pieces := Split(line, ',');
    FieldFacts(line, 0);
    FieldFacts(line, 1);
    FieldFacts(line, 2);
    FieldFacts(line, 3);
    FieldFacts(line, 4);
    CsvRecord(Field(pieces, 0), Field(pieces, 1), Field(pieces, 2),
              Field(pieces, 3), Field(pieces, 4))
  }

  /** The records a run of data lines yields: a blank line yields none, any
      other line the record of its trimmed text, in line order. */
  function Records(lines: seq<string>): (rs: seq<CsvRecord>)
    ensures |rs| <= |lines|
    decreases |lines|
  {
    if lines == [] then []
    else Records(lines[..|lines| - 1]) + LineRecords(lines[|lines| - 1])
  }

  /** What one data line yields: nothing when it is blank, otherwise the
      record of its trimmed text. */
  function LineRecords(rawLine: string): seq<CsvRecord> {
    var line := Trim(rawLine);
    if line == [] then [] else [RecordOf(line)]
  }

  /** The lines after the header, once the whole text is trimmed. */
  function DataLines(text: string): seq<string> {
    Split(Trim(text), '\n')[1..]
  }

  /** parseCsv: a read failure gives no records; otherwise the records of the
      data lines. */
  method ParseCsv(file: FileRead) returns (records: seq<CsvRecord>)
    ensures file.ReadError? ==> records == []
    ensures file.Contents? ==> records == Records(DataLines(file.text))
  {
    if file.ReadError? {
      return [];
    }
    var lines := Split(Trim(file.text), '\n');
    records := [];
    var dataLines := lines[1..];
    for i := 0 to |dataLines|
      invariant records == Records(dataLines[..i])
    {
      var line := Trim(dataLines[i]);
      assert dataLines[..i + 1][..i] == dataLines[..i];
      assert Records(dataLines[..i + 1]) == Records(dataLines[..i]) + LineRecords(dataLines[i]);
      if line == [] {
        continue;
      }
      var pieces := Split(line, ',');
      records := records + [CsvRecord(Field(pieces, 0), Field(pieces, 1), Field(pieces, 2),
                                      Field(pieces, 3), Field(pieces, 4))];
    }
    assert dataLines[..|dataLines|] == dataLines;
  }

  // ---------------------------------------------------------------------
  // Properties of the parser
  // ---------------------------------------------------------------------

  /** Empty input, or input that is a header alone, yields no records. */
  lemma HeaderOnlyYieldsNothing(text: string)
    requires '\n' !in Trim(text)
    ensures Records(DataLines(text)) == []
  {
    SplitWithoutSeparator(Trim(text), '\n');
  }

  /** The first line of the trimmed text is dropped whatever it holds; the data
      lines are exactly the lines after it. */
  lemma HeaderDropped(text: string, header: string, body: string)
    requires Trim(text) == header + ['\n'] + body && '\n' !in header
    ensures DataLines(text) == Split(body, '\n')
  {
    SplitAtFirstSeparator(header, body, '\n');
  }

  /** The records of consecutive runs of lines are the records of each run, in
      order. */
  lemma {:induction false} RecordsConcat(a: seq<string>, b: seq<string>)
    ensures Records(a + b) == Records(a) + Records(b)
    decreases |b|
  {
    if b == [] {
      assert a + b == a;
    } else {
      var b', x := b[..|b| - 1], b[|b| - 1];
      var ab' := a + b';
      assert b == b' + [x];
      assert a + b == ab' + [x];
      RecordsSnoc(ab', x);
      RecordsSnoc(b', x);
      RecordsConcat(a, b');
      AppendRegroup(Records(a), Records(b'), LineRecords(x), Records(ab'), Records(a + b), Records(b));
    }
  }

  lemma AppendRegroup<T>(x: seq<T>, y: seq<T>, z: seq<T>, xy: seq<T>, xyz: seq<T>, yz: seq<T>)
    requires xy == x + y && xyz == xy + z && yz == y + z
    ensures xyz == x + yz
  {
  }

  lemma RecordsSnoc(lines: seq<string>, line: string)
    ensures Records(lines + [line]) == Records(lines) + LineRecords(line)
  {
    assert (lines + [line])[..|lines|] == lines;
  }

  /** A single line yields no record when blank and exactly the record of its
      trimmed text otherwise. */
  lemma RecordsOfLine(line: string)
    ensures Trim(line) == [] <==> AllSpace(line)
    ensures Records([line]) == if AllSpace(line) then [] else [RecordOf(Trim(line))]
  {
    BlankIffAllSpace(line);
    assert [line][..0] == [];
  }

  lemma {:induction false} RecordsClean(lines: seq<string>)
    requires forall i :: 0 <= i < |lines| ==> '\n' !in lines[i]
    ensures forall r :: r in Records(lines) ==> CleanRecord(r) && SingleLine(r)
    decreases |lines|
  {
    if lines != [] {
      var last := lines[|lines| - 1];
      RecordsClean(lines[..|lines| - 1]);
      if '\n' in Trim(last) {
        TrimKeepsCharacters(last, '\n');
      }
      assert '\n' !in Trim(last);
    }
  }

  /** Every field the parser produces is trimmed and holds neither a comma nor
      a line break (so a trailing carriage return never survives). */
  lemma ParsedRecordsClean(text: string)
    ensures forall r :: r in Records(DataLines(text)) ==> CleanRecord(r) && SingleLine(r)
  {
    var lines := Split(Trim(text), '\n');
    SplitFacts(Trim(text), '\n');
    assert forall k :: 0 <= k < |lines| - 1 ==> lines[1..][k] == lines[k + 1];
    RecordsClean(DataLines(text));
  }

  // ---------------------------------------------------------------------
  // Round trip: a list written field by field parses back to its records
  // ---------------------------------------------------------------------

  /** A record a writer can put on one line and have parsed back unchanged. */
  predicate Writable(r: CsvRecord) {
    CleanRecord(r) && SingleLine(r)
  }

  /** A record written as one line of the list. */
  function FormatRecord(r: CsvRecord): string {
    Join(Fields(r), ',')
  }

  function FormatLines(rs: seq<CsvRecord>): (lines: seq<string>)
    ensures |lines| == |rs|
    ensures forall j :: 0 <= j < |rs| ==> lines[j] == FormatRecord(rs[j])
  {
    if rs == [] then [] else FormatLines(rs[..|rs| - 1]) + [FormatRecord(rs[|rs| - 1])]
  }

  /** A whole list: the header, then one line per record. */
  function Unparse(header: string, rs: seq<CsvRecord>): string {
    Join([header] + FormatLines(rs), '\n')
  }

  lemma FormatRecordParsesBack(r: CsvRecord)
    requires CleanRecord(r)
    ensures RecordOf(FormatRecord(r)) == r
  {
    SplitOfJoin(Fields(r), ',');
    TrimOfTrimmed(r.campaign);
    TrimOfTrimmed(r.display);
    TrimOfTrimmed(r.content);
    TrimOfTrimmed(r.duration);
    TrimOfTrimmed(r.rate);
  }

  lemma FormatRecordShape(r: CsvRecord)
    requires Writable(r)
    ensures FormatRecord(r) != [] && Trimmed(FormatRecord(r))
    ensures '\n' !in FormatRecord(r)
  {
    var fs := Fields(r);
    var line := FormatRecord(r);
    assert line == fs[0] + [','] + Join(fs[1..], ',');
    assert line[0] == if fs[0] != [] then fs[0][0] else ',';
    JoinSnoc(fs, ',');
    assert line == Join(fs[..4], ',') + [','] + fs[4];
    assert line[|line| - 1] == if fs[4] != [] then fs[4][|fs[4]| - 1] else ',';
    JoinWithout(fs, ',', '\n');
  }

  lemma LastSplit<T>(s: seq<T>)
    requires s != []
    ensures s[..|s| - 1] + [s[|s| - 1]] == s
  {
  }

  lemma {:induction false} RecordsOfFormatted(rs: seq<CsvRecord>)
    requires forall j :: 0 <= j < |rs| ==> Writable(rs[j])
    ensures Records(FormatLines(rs)) == rs
    decreases |rs|
  {
    if rs != [] {
      var n := |rs|;
      var last := FormatRecord(rs[n - 1]);
      RecordsOfFormatted(rs[..n - 1]);
      FormatRecordShape(rs[n - 1]);
      FormatRecordParsesBack(rs[n - 1]);
      TrimOfTrimmed(last);
      var init := FormatLines(rs[..n - 1]);
      assert FormatLines(rs) == init + [last];
      RecordsSnoc(init, last);
      LastSplit(rs);
    }
  }

  /** A line a writer produces for one record. */
  predicate FormattedLine(line: string) {
    line != [] && Trimmed(line) && '\n' !in line
  }

  lemma FormatLinesShape(rs: seq<CsvRecord>)
    requires forall j :: 0 <= j < |rs| ==> Writable(rs[j])
    ensures forall j :: 0 <= j < |rs| ==> FormattedLine(FormatLines(rs)[j])
  {
    forall j | 0 <= j < |rs| ensures FormattedLine(FormatLines(rs)[j]) {
      FormatRecordShape(rs[j]);
    }
  }

  lemma {:induction false} UnparseShape(header: string, body: seq<string>)
    requires header != [] && Trimmed(header) && '\n' !in header
    requires forall j :: 0 <= j < |body| ==> FormattedLine(body[j])
    ensures Trimmed(Join([header] + body, '\n'))
    ensures forall k :: 0 <= k < |body| + 1 ==> '\n' !in ([header] + body)[k]
  {
    var lines := [header] + body;
    var text := Join(lines, '\n');
    if body != [] {
      var last := lines[|body|];
      assert last == body[|body| - 1] && FormattedLine(last);
      assert lines[1..] == body;
      assert text == header + (['\n'] + Join(body, '\n'));
      JoinSnoc(lines, '\n');
      TrimmedBetween(text, header, ['\n'] + Join(body, '\n'), Join(lines[..|body|], '\n') + ['\n'], last);
    } else {
      assert lines == [header];
    }
    forall k | 0 <= k < |body| + 1 ensures '\n' !in lines[k] {
      if k > 0 {
        assert lines[k] == body[k - 1];
      }
    }
  }

  /** A string that starts like one trimmed string and ends like another is
      trimmed. */
  lemma TrimmedBetween(t: string, a: string, x: string, y: string, b: string)
    requires t == a + x && t == y + b
    requires a != [] && Trimmed(a) && b != [] && Trimmed(b)
    ensures Trimmed(t)
  {
    assert t[0] == a[0];
    assert t[|t| - 1] == b[|b| - 1];
  }

  /** The data lines of a written list are the lines written after the header. */
  lemma DataLinesOfWritten(header: string, body: seq<string>)
    requires header != [] && Trimmed(header) && '\n' !in header
    requires forall j :: 0 <= j < |body| ==> FormattedLine(body[j])
    ensures DataLines(Join([header] + body, '\n')) == body
  {
    var lines := [header] + body;
    UnparseShape(header, body);
    TrimOfTrimmed(Join(lines, '\n'));
    SplitOfJoin(lines, '\n');
    assert lines[1..] == body;
  }

  /** Writing a header and records as a list and parsing it gives the records
      back, in order. */
  lemma ParseOfUnparse(header: string, rs: seq<CsvRecord>)
    requires header != [] && Trimmed(header) && '\n' !in header
    requires forall j :: 0 <= j < |rs| ==> Writable(rs[j])
    ensures Records(DataLines(Unparse(header, rs))) == rs
  {
    FormatLinesShape(rs);
    DataLinesOfWritten(header, FormatLines(rs));
    RecordsOfFormatted(rs);
  }
}

=== FILE: naming.dfy ===
/** The names the recorder derives for one job: the job name, the file name
    of each staged frame, the staging and output paths, and the encoder
    command line. */
module Naming {
  import opened Text
  import opened Csv

  // ---------------------------------------------------------------------
  // Job name
  // ---------------------------------------------------------------------

  /** The job name: campaign, display and content joined by underscores. */
  function JobName(r: CsvRecord): string {
    r.campaign + "_" + r.display + "_" + r.content
  }

  /** When no part holds an underscore, the job name splits back into
      campaign, display and content. */
  lemma JobNameParts(r: CsvRecord)
    requires '_' !in r.campaign && '_' !in r.display && '_' !in r.content
    ensures Split(JobName(r), '_') == [r.campaign, r.display, r.content]
  {
    var parts := [r.campaign, r.display, r.content];
    assert Join(parts[1..], '_') == r.display + "_" + r.content;
    assert JobName(r) == Join(parts, '_');
    SplitOfJoin(parts, '_');
  }

  // ---------------------------------------------------------------------
  // Frame file names
  // ---------------------------------------------------------------------

  /** The frame index as decimal digits, zero-filled on the left to four. */
  function PaddedIndex(i: nat): string {
    PadStart(NatToString(i), 4, '0')
  }

  /** The padded index reads back as the index; it has at least four digits,
      and exactly four below 10000. */
  lemma PaddedIndexFacts(i: nat)
    ensures AllDigits(PaddedIndex(i)) && DecimalValue(PaddedIndex(i)) == i
    ensures |PaddedIndex(i)| >= 4
    ensures i < 10000 ==> |PaddedIndex(i)| == 4
  {
    ZeroPaddedValue(NatToString(i), 4);
    if i < 10000 {
      assert Pow10(4) == 10000 by {
        assert Pow10(1) == 10;
        assert Pow10(2) == 100;
        assert Pow10(3) == 1000;
      }
      NatToStringLength(i, 4);
    }
  }

  /** The file a captured frame is staged under. */
  function FrameFileName(i: nat): string {
    "frame_" + PaddedIndex(i) + ".png"
  }

  /** Below 10000 every frame file name has the same length. */
  lemma FrameFileNameLength(i: nat)
    requires i < 10000
    ensures |FrameFileName(i)| == 14
  {
    PaddedIndexFacts(i);
  }

  /** Padding never truncates: different indices get different names. */
  lemma FrameFileNameInjective(i: nat, j: nat)
    requires FrameFileName(i) == FrameFileName(j)
    ensures i == j
  {
    var n := FrameFileName(i);
    assert n[6..|n| - 4] == PaddedIndex(i);
    assert FrameFileName(j)[6..|n| - 4] == PaddedIndex(j);
    PaddedIndexFacts(i);
    PaddedIndexFacts(j);
  }

  /** Below 10000, the string order of frame file names is the order of the
      indices. */
  lemma FrameFileNameOrder(i: nat, j: nat)
    requires i < 10000 && j < 10000
    ensures i < j <==> LexLess(FrameFileName(i), FrameFileName(j))
  {
    var pi, pj := PaddedIndex(i), PaddedIndex(j);
    PaddedIndexFacts(i);
    PaddedIndexFacts(j);
    if i == j {
      LexLessIrreflexive(FrameFileName(i));
    } else {
      assert FrameFileName(i) == "frame_" + (pi + ".png");
      assert FrameFileName(j) == "frame_" + (pj + ".png");
      LexLessCommonPrefix("frame_", pi + ".png", pj + ".png");
      LexLessEqualLength(pi, pj, ".png", ".png");
      LexLessDigits(pi, pj);
    }
  }

  // ---------------------------------------------------------------------
  // The encoder's input pattern
  // ---------------------------------------------------------------------

  /** The input pattern handed to the encoder. */
  const FramePattern: string := "frame_%04d.png"

  /** printf's `%0<width>d` conversion of a non-negative number: its decimal
      digits, zero-filled on the left to at least `width` characters. */
  function ZeroFilledDecimal(n: nat, width: nat): string
    decreases n + width
  {
    if n < 10 && width <= 1 then [DigitChar(n)]
    else ZeroFilledDecimal(n / 10, if width == 0 then 0 else width - 1) + [DigitChar(n % 10)]
  }

  /** The model's substitution of a frame number into the input pattern:
      each `%04d` becomes the number zero-filled to four digits, every other
      character stands for itself. This is the encoder's behaviour for a
      pattern whose only `%` is one `%04d`; other uses of `%` are not
      modelled. */
  function ExpandPattern(pattern: string, n: nat): string
    decreases |pattern|
  {
    if |pattern| >= 4 && pattern[..4] == "%04d" then
      ZeroFilledDecimal(n, 4) + ExpandPattern(pattern[4..], n)
    else if pattern == [] then []
    else [pattern[0]] + ExpandPattern(pattern[1..], n)
  }

  /** `%0<width>d` and padStart with '0' agree on every number and width. */
  lemma {:induction false} ZeroFilledIsPadded(n: nat, width: nat)
    ensures ZeroFilledDecimal(n, width) == PadStart(NatToString(n), width, '0')
    decreases n + width
  {
    if !(n < 10 && width <= 1) {
      var w := if width == 0 then 0 else width - 1;
      var d := DigitChar(n % 10);
      ZeroFilledIsPadded(n / 10, w);
      if n < 10 {
        SingleDigitPadded(n, width);
      } else {
        PaddedLastDigit(n, width);
      }
    }
  }

  /** Padding the digits of n to `width` is padding the digits of n / 10 to
      one less, then the last digit. */
  lemma PaddedLastDigit(n: nat, width: nat)
    requires n >= 10
    ensures PadStart(NatToString(n / 10), if width == 0 then 0 else width - 1, '0') + [DigitChar(n % 10)] ==
      PadStart(NatToString(n), width, '0')
  {
    var w := if width == 0 then 0 else width - 1;
    var p, d := NatToString(n / 10), DigitChar(n % 10);
    assert NatToString(n) == p + [d];
    PadStartSnoc(p, w, '0', d);
    if width == 0 {
      assert PadStart(p + [d], 1, '0') == p + [d] == PadStart(p + [d], 0, '0');
    }
  }

  lemma SingleDigitPadded(n: nat, width: nat)
    requires n < 10 && width >= 2
    requires ZeroFilledDecimal(0, width - 1) == PadStart(NatToString(0), width - 1, '0')
    ensures ZeroFilledDecimal(n, width) == PadStart(NatToString(n), width, '0')
  {
    var d := DigitChar(n);
    assert n / 10 == 0 && n % 10 == n;
    assert ZeroFilledDecimal(n, width) == ZeroFilledDecimal(0, width - 1) + [d];
    assert NatToString(n) == [d];
    ZerosThenDigit(width - 1, d);
  }

  /** A single digit padded to w + 1 is the number 0 padded to w, then the
      digit. */
  lemma ZerosThenDigit(w: nat, d: char)
    requires w >= 1
    ensures PadStart(NatToString(0), w, '0') + [d] == PadStart([d], w + 1, '0')
  {
    var zeros := seq(w, _ => '0');
    assert NatToString(0) == ['0'];
    assert PadStart(['0'], w, '0') == zeros by {
      if w > 1 {
        assert seq(w - 1, _ => '0') + ['0'] == zeros;
      }
    }
    assert PadStart([d], w + 1, '0') == zeros + [d];
  }

  lemma {:induction false} ExpandLiteral(literal: string, rest: string, n: nat)
    requires '%' !in literal
    ensures ExpandPattern(literal + rest, n) == literal + ExpandPattern(rest, n)
    decreases |literal|
  {
    if literal != [] {
      var p := literal + rest;
      assert p[0] == literal[0] && p[1..] == literal[1..] + rest;
      assert |p| >= 4 ==> p[..4][0] == literal[0];
      ExpandLiteral(literal[1..], rest, n);
    } else {
      assert literal + rest == rest;
    }
  }

  /** Expanding the encoder's input pattern with a frame number gives exactly
      the name that frame is staged under. */
  lemma PatternNamesStagedFrame(i: nat)
    ensures ExpandPattern(FramePattern, i) == FrameFileName(i)
  {
    var tail := "%04d.png";
    assert FramePattern == "frame_" + tail;
    ExpandLiteral("frame_", tail, i);
    ExpandTail(i);
    ZeroFilledIsPadded(i, 4);
    assert "frame_" + (PaddedIndex(i) + ".png") == FrameFileName(i);
  }

  lemma ExpandTail(i: nat)
    ensures ExpandPattern("%04d.png", i) == ZeroFilledDecimal(i, 4) + ".png"
  {
    var tail := "%04d.png";
    assert tail[..4] == "%04d" && tail[4..] == ".png";
    ExpandLiteral(".png", [], i);
    assert ".png" + [] == ".png";
  }

  // ---------------------------------------------------------------------
  // Paths
  // ---------------------------------------------------------------------

  /** A file inside a directory. */
  function JoinPath(dir: string, file: string): string {
    dir + "/" + file
  }

  /** The staging directory of a job: `temp_frames/<job name>` under the
      working directory. */
  function StagingDir(cwd: string, name: string): string {
    JoinPath(JoinPath(cwd, "temp_frames"), name)
  }

  /** The video of a job: `output/<job name>.mp4` under the working directory. */
  function OutputPath(cwd: string, name: string): string {
    JoinPath(JoinPath(cwd, "output"), name + ".mp4")
  }

  /** Where frame i is staged. */
  function FramePath(dir: string, i: nat): string {
    JoinPath(dir, FrameFileName(i))
  }

  /** Two frames are staged at the same path only when they are the same
      frame. */
  lemma FramePathInjective(dir: string, i: nat, j: nat)
    ensures FramePath(dir, i) == FramePath(dir, j) <==> i == j
  {
    assert FramePath(dir, i)[|dir| + 1..] == FrameFileName(i);
    assert FramePath(dir, j)[|dir| + 1..] == FrameFileName(j);
    if FrameFileName(i) == FrameFileName(j) {
      FrameFileNameInjective(i, j);
    }
  }

  /** The staging directory holds a `%` only when the working directory or
      the job name does. */
  lemma StagingDirWithoutPercent(cwd: string, name: string)
    ensures '%' !in cwd && '%' !in name <==> '%' !in StagingDir(cwd, name)
  {
    assert StagingDir(cwd, name) == cwd + ("/temp_frames/" + name);
    assert '%' !in "/temp_frames/";
  }

  /** The quoted `-i` text of the command string is expanded whole,
      directory included. When the directory holds no `%`, that text
      expanded with frame number i names the path frame i is staged in. */
  lemma InputPatternNamesFramePath(dir: string, i: nat)
    requires '%' !in dir
    ensures ExpandPattern(JoinPath(dir, FramePattern), i) == FramePath(dir, i)
  {
    ExpandLiteral(dir + "/", FramePattern, i);
    PatternNamesStagedFrame(i);
  }

  /** Under the model's expansion, a `%04d` in the directory is expanded
      too, so the argument no longer names the staged frame. */
  lemma PercentInDirectoryMisnames()
    ensures ExpandPattern(JoinPath("%04d", FramePattern), 1) != FramePath("%04d", 1)
  {
    var arg := JoinPath("%04d", FramePattern);
    assert arg[..4] == "%04d";
    assert ZeroFilledDecimal(1, 4)[0] == '0' by {
      assert ZeroFilledDecimal(0, 0) == "0";
      assert ZeroFilledDecimal(0, 1) == "0";
      assert ZeroFilledDecimal(0, 2) == "00";
      assert ZeroFilledDecimal(0, 3) == "000";
    }
    assert ExpandPattern(arg, 1)[0] == '0';
    assert FramePath("%04d", 1)[0] == '%';
  }

  // ---------------------------------------------------------------------
  // Encoder command
  // ---------------------------------------------------------------------

  function Quote(s: string): string {
    "\"" + s + "\""
  }

  /** The parts of the encoder command line: quoted binary, overwrite, the
      frame rate, the input pattern in the staging directory, H.264, yuv420p,
      quality 23 and the quoted output path. */
  function EncodeParts(encoder: string, rate: nat, stagingDir: string, outputPath: string): seq<string> {
    [Quote(encoder),
     "-y",
     "-framerate " + NatToString(rate),
     "-i " + Quote(JoinPath(stagingDir, FramePattern)),
     "-c:v libx264",
     "-pix_fmt yuv420p",
     "-crf 23",
     Quote(outputPath)]
  }

  /** The encoder command line: the parts joined by single spaces. */
  function EncodeCommand(encoder: string, rate: nat, stagingDir: string, outputPath: string): string {
    Join(EncodeParts(encoder, rate, stagingDir, outputPath), ' ')
  }

  lemma JoinFrom(parts: seq<string>, k: nat, sep: char)
    requires k + 1 < |parts|
    ensures Join(parts[k..], sep) == parts[k] + [sep] + Join(parts[k + 1..], sep)
  {
    assert parts[k..][1..] == parts[k + 1..];
  }

  /** A part made of two words joins like the two words. */
  lemma JoinOnePart(parts: seq<string>, k: nat, words: seq<string>, m: nat, a: string, b: string)
    requires k + 1 < |parts| && m + 2 < |words|
    requires parts[k] == a + " " + b && words[m] == a && words[m + 1] == b
    requires Join(parts[k + 1..], ' ') == Join(words[m + 2..], ' ')
    ensures Join(parts[k..], ' ') == Join(words[m..], ' ')
  {
    JoinFrom(parts, k, ' ');
    JoinFrom(words, m, ' ');
    JoinFrom(words, m + 1, ' ');
  }

  lemma QuoteWithout(s: string, c: char)
    requires c != '"' && c !in s
    ensures c !in Quote(s)
  {
  }

  lemma DigitsHaveNoSpace(s: string)
    requires AllDigits(s)
    ensures ' ' !in s
  {
  }

  /** The words of the encoder command, one option or value each. */
  function EncodeWords(encoder: string, rate: nat, stagingDir: string, outputPath: string): seq<string> {
    [Quote(encoder), "-y", "-framerate", NatToString(rate),
     "-i", Quote(JoinPath(stagingDir, FramePattern)),
     "-c:v", "libx264", "-pix_fmt", "yuv420p", "-crf", "23", Quote(outputPath)]
  }

  lemma PartsMatchWordsFrom4(encoder: string, rate: nat, stagingDir: string, outputPath: string)
    ensures Join(EncodeParts(encoder, rate, stagingDir, outputPath)[4..], ' ') ==
      Join(EncodeWords(encoder, rate, stagingDir, outputPath)[6..], ' ')
  {
    var parts := EncodeParts(encoder, rate, stagingDir, outputPath);
    var words := EncodeWords(encoder, rate, stagingDir, outputPath);
    PartsMatchWordsFrom6(encoder, rate, stagingDir, outputPath);
    assert "-pix_fmt yuv420p" == "-pix_fmt" + " " + "yuv420p";
    JoinOnePart(parts, 5, words, 8, "-pix_fmt", "yuv420p");
    assert "-c:v libx264" == "-c:v" + " " + "libx264";
    JoinOnePart(parts, 4, words, 6, "-c:v", "libx264");
  }

  lemma PartsMatchWordsFrom6(encoder: string, rate: nat, stagingDir: string, outputPath: string)
    ensures Join(EncodeParts(encoder, rate, stagingDir, outputPath)[6..], ' ') ==
      Join(EncodeWords(encoder, rate, stagingDir, outputPath)[10..], ' ')
  {
    var parts := EncodeParts(encoder, rate, stagingDir, outputPath);
    var words := EncodeWords(encoder, rate, stagingDir, outputPath);
    assert parts[7..] == [parts[7]] && words[12..] == [words[12]];
    assert "-crf 23" == "-crf" + " " + "23";
    JoinOnePart(parts, 6, words, 10, "-crf", "23");
  }

  lemma PartsMatchWordsFrom2(encoder: string, rate: nat, stagingDir: string, outputPath: string)
    ensures Join(EncodeParts(encoder, rate, stagingDir, outputPath)[2..], ' ') ==
      Join(EncodeWords(encoder, rate, stagingDir, outputPath)[2..], ' ')
  {
    var parts := EncodeParts(encoder, rate, stagingDir, outputPath);
    var words := EncodeWords(encoder, rate, stagingDir, outputPath);
    var r := NatToString(rate);
    PartsMatchWordsFrom4(encoder, rate, stagingDir, outputPath);
    JoinOnePart(parts, 3, words, 4, "-i", Quote(JoinPath(stagingDir, FramePattern)));
    assert "-framerate " + r == "-framerate" + " " + r by {
      assert "-framerate " == "-framerate" + " ";
    }
    JoinOnePart(parts, 2, words, 2, "-framerate", r);
  }

  lemma EncodeCommandJoinsWords(encoder: string, rate: nat, stagingDir: string, outputPath: string)
    ensures EncodeCommand(encoder, rate, stagingDir, outputPath) ==
      Join(EncodeWords(encoder, rate, stagingDir, outputPath), ' ')
  {
    var parts := EncodeParts(encoder, rate, stagingDir, outputPath);
    var words := EncodeWords(encoder, rate, stagingDir, outputPath);
    PartsMatchWordsFrom2(encoder, rate, stagingDir, outputPath);
    JoinFrom(parts, 1, ' ');
    JoinFrom(words, 1, ' ');
    JoinFrom(parts, 0, ' ');
    JoinFrom(words, 0, ' ');
    assert parts[0..] == parts && words[0..] == words;
  }

  lemma EncodeWordsWithoutSpace(encoder: string, rate: nat, stagingDir: string, outputPath: string)
    requires ' ' !in encoder && ' ' !in stagingDir && ' ' !in outputPath
    ensures forall k :: 0 <= k < 13 ==> ' ' !in EncodeWords(encoder, rate, stagingDir, outputPath)[k]
  {
    var words := EncodeWords(encoder, rate, stagingDir, outputPath);
    DigitsHaveNoSpace(NatToString(rate));
    QuoteWithout(encoder, ' ');
    QuoteWithout(outputPath, ' ');
    QuoteWithout(JoinPath(stagingDir, FramePattern), ' ');
    forall k | 0 <= k < 13 ensures ' ' !in words[k] {
      if !(k == 0 || k == 3 || k == 5 || k == 12) {
        assert words[k] in {"-y", "-framerate", "-i", "-c:v", "libx264", "-pix_fmt", "yuv420p", "-crf", "23"};
      }
    }
  }

  /** When the binary, the staging directory and the output path hold no
      space, the command splits on spaces into exactly these words, in this
      order. */
  lemma EncodeCommandWords(encoder: string, rate: nat, stagingDir: string, outputPath: string)
    requires ' ' !in encoder && ' ' !in stagingDir && ' ' !in outputPath
    ensures Split(EncodeCommand(encoder, rate, stagingDir, outputPath), ' ') ==
      [Quote(encoder), "-y", "-framerate", NatToString(rate),
       "-i", Quote(JoinPath(stagingDir, FramePattern)),
       "-c:v", "libx264", "-pix_fmt", "yuv420p", "-crf", "23", Quote(outputPath)]
  {
    EncodeCommandJoinsWords(encoder, rate, stagingDir, outputPath);
    EncodeWordsWithoutSpace(encoder, rate, stagingDir, outputPath);
    SplitOfJoin(EncodeWords(encoder, rate, stagingDir, outputPath), ' ');
  }
}

=== FILE: text.dfy ===
/** The string operations of the JavaScript runtime that the batch recorder
    relies on: String.prototype.trim, split and padStart with a one-character
    argument, Array.prototype.join, Number.prototype.toString of a whole
    number, and `<` on strings. Strings are sequences of characters. */
module Text {

  // ---------------------------------------------------------------------
  // trim
  // ---------------------------------------------------------------------

  /** The characters trim removes: the WhiteSpace and LineTerminator code
      points of ECMA-262 (sections 12.2 and 12.3 of ECMAScript 2024). */
  predicate IsSpace(c: char) {
    var n := c as int;
    (0x09 <= n <= 0x0D) || n == 0x20 || n == 0xA0 || n == 0x1680 ||
    (0x2000 <= n <= 0x200A) || n == 0x2028 || n == 0x2029 || n == 0x202F ||
    n == 0x205F || n == 0x3000 || n == 0xFEFF
  }

  predicate AllSpace(s: string) {
    forall k :: 0 <= k < |s| ==> IsSpace(s[k])
  }

  /** A string that trim leaves alone: empty, or neither starting nor ending
      with white space. */
  predicate Trimmed(s: string) {
    s == [] || (!IsSpace(s[0]) && !IsSpace(s[|s| - 1]))
  }

  /** Drops the longest all-space prefix. */
  function TrimStart(s: string): (r: string)
    ensures |r| <= |s|
    decreases |s|
  {
    if s != [] && IsSpace(s[0]) then TrimStart(s[1..]) else s
  }

  /** What TrimStart removes is white space, what it keeps is a suffix that
      does not start with white space. */
  lemma {:induction false} TrimStartFacts(s: string)
    ensures var r := TrimStart(s);
      |r| <= |s| && r == s[|s| - |r|..] && AllSpace(s[..|s| - |r|]) &&
      (r == [] || !IsSpace(r[0]))
    decreases |s|
  {
    if s != [] && IsSpace(s[0]) {
      var tail := s[1..];
      var r := TrimStart(tail);
      TrimStartFacts(tail);
      var n := |s| - |r|;
      assert tail[n - 1..] == s[n..];
      assert forall k :: 0 <= k < n ==> s[..n][k] == s[k];
      assert forall k :: 1 <= k < n ==> s[k] == tail[..n - 1][k - 1];
    }
  }

  /** Drops the longest all-space suffix. */
  function TrimEnd(s: string): (r: string)
    ensures |r| <= |s|
    decreases |s|
  {
    if s != [] && IsSpace(s[|s| - 1]) then TrimEnd(s[..|s| - 1]) else s
  }

  /** What TrimEnd removes is white space, what it keeps is a prefix that
      does not end with white space. */
  lemma {:induction false} TrimEndFacts(s: string)
    ensures var r := TrimEnd(s);
      |r| <= |s| && r == s[..|r|] && AllSpace(s[|r|..]) &&
      (r == [] || !IsSpace(r[|r| - 1]))
    decreases |s|
  {
    if s != [] && IsSpace(s[|s| - 1]) {
      var r := TrimEnd(s[..|s| - 1]);
      TrimEndFacts(s[..|s| - 1]);
      assert s[|r|..] == s[..|s| - 1][|r|..] + [s[|s| - 1]];
    }
  }

  /** String.prototype.trim: the all-space prefix and the all-space suffix
      removed. */
  function Trim(s: string): (r: string)
    ensures Trimmed(r)
  {
    var t := TrimStart(s);
    TrimStartFacts(s);
    TrimEndFacts(t);
    TrimEndKeepsStart(t, TrimEnd(t));
    TrimEnd(t)
  }

  /** The trimmed string is the slice of `s` left once an all-space prefix
      and an all-space suffix are cut off. */
  lemma TrimSlice(s: string)
    ensures var i := |s| - |TrimStart(s)|; var r := Trim(s);
      i + |r| <= |s| && r == s[i..i + |r|] && AllSpace(s[..i]) && AllSpace(s[i + |r|..])
  {
    var t := TrimStart(s);
    TrimStartFacts(s);
    TrimEndFacts(t);
    TrimSlices(s, t, TrimEnd(t));
  }

  lemma TrimSlices(s: string, t: string, r: string)
    requires |t| <= |s| && t == s[|s| - |t|..]
    requires |r| <= |t| && r == t[..|r|] && AllSpace(t[|r|..])
    ensures var i := |s| - |t|;
      i + |r| <= |s| && r == s[i..i + |r|] && AllSpace(s[i + |r|..])
  {
    SliceOfSuffix(s, |s| - |t|, |s| - |t| + |r|);
  }

  /** Removing a suffix keeps the first character. */
  lemma TrimEndKeepsStart(t: string, r: string)
    requires t == [] || !IsSpace(t[0])
    requires |r| <= |t| && r == t[..|r|] && (r == [] || !IsSpace(r[|r| - 1]))
    ensures Trimmed(r)
  {
    if r != [] {
      assert r[0] == t[0];
    }
  }

  /** Slicing a suffix is slicing the whole. */
  lemma SliceOfSuffix<T>(s: seq<T>, i: nat, j: nat)
    requires i <= j <= |s|
    ensures s[i..][..j - i] == s[i..j]
    ensures s[i..][j - i..] == s[j..]
  {
  }

  /** trim leaves a trimmed string unchanged; in particular trim is idempotent. */
  lemma TrimOfTrimmed(s: string)
    requires Trimmed(s)
    ensures Trim(s) == s
  {
  }

  /** A line is blank (trims to the empty string) exactly when every character
      of it is white space. */
  lemma {:induction false} BlankIffAllSpace(s: string)
    ensures Trim(s) == [] <==> AllSpace(s)
  {
    var i := |s| - |TrimStart(s)|;
    var r := Trim(s);
    TrimSlice(s);
    if r == [] {
      forall k | 0 <= k < |s| ensures IsSpace(s[k]) {
        if k < i {
          assert s[..i][k] == s[k];
        } else {
          assert s[i..][k - i] == s[k];
        }
      }
    } else {
      assert r[0] == s[i];
    }
  }

  /** Every character of the trimmed string occurs in the original. */
  lemma TrimKeepsCharacters(s: string, c: char)
    requires c in Trim(s)
    ensures c in s
  {
    var i := |s| - |TrimStart(s)|;
    var r := Trim(s);
    TrimSlice(s);
    var k :| 0 <= k < |r| && r[k] == c;
    assert r[k] == s[i..i + |r|][k] == s[i + k];
  }

  // ---------------------------------------------------------------------
  // split and join
  // ---------------------------------------------------------------------

  /** Array.prototype.join with a one-character separator. */
  function Join(parts: seq<string>, sep: char): string
  {
    if |parts| == 0 then []
    else if |parts| == 1 then parts[0]
    else parts[0] + [sep] + Join(parts[1..], sep)
  }

  /** String.prototype.split with a one-character separator: the pieces
      between consecutive separators, at least one. */
  function Split(s: string, sep: char): (r: seq<string>)
    ensures |r| >= 1
    decreases |s|
  {
    if s == [] then [[]]
    else
      var rest := Split(s[1..], sep);
      if s[0] == sep then [[]] + rest
      else [[s[0]] + rest[0]] + rest[1..]
  }

  /** No piece holds the separator, and joining the pieces with it gives the
      original string back. */
  lemma {:induction false} SplitFacts(s: string, sep: char)
    ensures forall k :: 0 <= k < |Split(s, sep)| ==> sep !in Split(s, sep)[k]
    ensures Join(Split(s, sep), sep) == s
    decreases |s|
  {
    if s != [] {
      var rest := Split(s[1..], sep);
      SplitFacts(s[1..], sep);
      assert [s[0]] + s[1..] == s;
      if s[0] != sep {
        JoinPrepend(rest, sep, s[0]);
      }
    }
  }

  /** Prepending a character to the first piece prepends it to the join. */
  lemma JoinPrepend(rest: seq<string>, sep: char, c: char)
    requires |rest| >= 1
    ensures Join([[c] + rest[0]] + rest[1..], sep) == [c] + Join(rest, sep)
  {
    var r := [[c] + rest[0]] + rest[1..];
    assert r[1..] == rest[1..];
    if |rest| > 1 {
      assert Join(rest, sep) == rest[0] + [sep] + Join(rest[1..], sep);
    }
  }

  /** Join of more than one piece, peeled from the back. */
  lemma {:induction false} JoinSnoc(parts: seq<string>, sep: char)
    requires |parts| >= 2
    ensures Join(parts, sep) == Join(parts[..|parts| - 1], sep) + [sep] + parts[|parts| - 1]
    decreases |parts|
  {
    if |parts| > 2 {
      JoinSnoc(parts[1..], sep);
      assert parts[1..][..|parts| - 2] == parts[..|parts| - 1][1..];
      assert parts[1..][|parts| - 2] == parts[|parts| - 1];
    }
  }

  /** A character that is neither the separator nor in any part is not in
      the join. */
  lemma {:induction false} JoinWithout(parts: seq<string>, sep: char, c: char)
    requires c != sep && forall k :: 0 <= k < |parts| ==> c !in parts[k]
    ensures c !in Join(parts, sep)
    decreases |parts|
  {
    if |parts| > 1 {
      JoinWithout(parts[1..], sep, c);
    }
  }

  /** A string without the separator splits into itself alone. */
  lemma {:induction false} SplitWithoutSeparator(s: string, sep: char)
    requires sep !in s
    ensures Split(s, sep) == [s]
    decreases |s|
  {
    if s != [] {
      SplitWithoutSeparator(s[1..], sep);
      assert [s[0]] + s[1..] == s;
    }
  }

  /** Splitting `head sep tail`, where `head` holds no separator, yields `head`
      followed by the pieces of `tail`. */
  lemma {:induction false} SplitAtFirstSeparator(head: string, tail: string, sep: char)
    requires sep !in head
    ensures Split(head + [sep] + tail, sep) == [head] + Split(tail, sep)
    decreases |head|
  {
    var s := head + [sep] + tail;
    if head == [] {
      assert s[0] == sep && s[1..] == tail;
    } else {
      SplitAtFirstSeparator(head[1..], tail, sep);
      assert s[1..] == head[1..] + [sep] + tail;
      assert [head[0]] + head[1..] == head;
    }
  }

  /** split undoes join when no piece holds the separator. */
  lemma {:induction false} SplitOfJoin(parts: seq<string>, sep: char)
    requires |parts| >= 1
    requires forall k :: 0 <= k < |parts| ==> sep !in parts[k]
    ensures Split(Join(parts, sep), sep) == parts
    decreases |parts|
  {
    if |parts| == 1 {
      SplitWithoutSeparator(parts[0], sep);
    } else {
      SplitOfJoin(parts[1..], sep);
      SplitAtFirstSeparator(parts[0], Join(parts[1..], sep), sep);
      assert [parts[0]] + parts[1..] == parts;
    }
  }

  // ---------------------------------------------------------------------
  // decimal numerals
  // ---------------------------------------------------------------------

  predicate IsDigit(c: char) {
    '0' <= c <= '9'
  }

  predicate AllDigits(s: string) {
    forall k :: 0 <= k < |s| ==> IsDigit(s[k])
  }

  function DigitChar(v: nat): (c: char)
    requires v < 10
    ensures IsDigit(c)
  {
    ('0' as int + v) as char
  }

  function DigitValue(c: char): nat
    requires IsDigit(c)
  {
    c as int - '0' as int
  }

  function Pow10(k: nat): (p: nat)
    ensures p >= 1
  {
    if k == 0 then 1 else 10 * Pow10(k - 1)
  }

  /** The number a string of decimal digits denotes (leading zeros allowed). */
  function DecimalValue(s: string): (v: nat)
    requires AllDigits(s)
    ensures v < Pow10(|s|)
    decreases |s|
  {
    if s == [] then 0
    else DecimalValue(s[..|s| - 1]) * 10 + DigitValue(s[|s| - 1])
  }

  /** Number.prototype.toString of a whole number: its decimal digits without
      a leading zero, which read back as the number itself. */
  function NatToString(n: nat): (s: string)
    ensures 1 <= |s| && AllDigits(s)
    ensures DecimalValue(s) == n
    ensures |s| > 1 ==> s[0] != '0' && Pow10(|s| - 1) <= n
  {
    if n < 10 then [DigitChar(n)]
    else
      var p := NatToString(n / 10);
      var s := p + [DigitChar(n % 10)];
      assert s[..|s| - 1] == p;
      s
  }

  lemma {:induction false} Pow10Monotone(j: nat, k: nat)
    ensures j <= k ==> Pow10(j) <= Pow10(k)
    decreases k
  {
    if j < k {
      Pow10Monotone(j, k - 1);
    }
  }

  /** A number below 10^k prints in at most k digits. */
  lemma NatToStringLength(n: nat, k: nat)
    requires 1 <= k && n < Pow10(k)
    ensures |NatToString(n)| <= k
  {
    var s := NatToString(n);
    Pow10Monotone(k, |s| - 1);
  }

  lemma {:induction false} DecimalValueAppend(a: string, b: string)
    requires AllDigits(a) && AllDigits(b)
    ensures DecimalValue(a + b) == DecimalValue(a) * Pow10(|b|) + DecimalValue(b)
    decreases |b|
  {
    if b != [] {
      var b' := b[..|b| - 1];
      var d := DigitValue(b[|b| - 1]);
      assert (a + b)[..|a + b| - 1] == a + b';
      assert (a + b)[|a + b| - 1] == b[|b| - 1];
      assert DecimalValue(a + b) == DecimalValue(a + b') * 10 + d;
      assert DecimalValue(b) == DecimalValue(b') * 10 + d;
      DecimalValueAppend(a, b');
      ShiftDigit(DecimalValue(a), Pow10(|b'|), DecimalValue(b'), d);
    } else {
      assert a + b == a;
    }
  }

  lemma ShiftDigit(x: nat, p: nat, y: nat, d: nat)
    ensures (x * p + y) * 10 + d == x * (10 * p) + (y * 10 + d)
  {
  }

  /** A digit string read from the front: its first digit weighs 10^(length-1). */
  lemma DecimalValueCons(s: string)
    requires AllDigits(s) && s != []
    ensures DecimalValue(s) == DigitValue(s[0]) * Pow10(|s| - 1) + DecimalValue(s[1..])
  {
    var h := [s[0]];
    assert s == h + s[1..];
    assert h[..0] == [];
    assert DecimalValue(h) == DigitValue(s[0]);
    DecimalValueAppend(h, s[1..]);
  }

  lemma {:induction false} ZerosValue(z: string)
    requires forall k :: 0 <= k < |z| ==> z[k] == '0'
    ensures AllDigits(z) && DecimalValue(z) == 0
    decreases |z|
  {
    if z != [] {
      ZerosValue(z[..|z| - 1]);
    }
  }

  // ---------------------------------------------------------------------
  // padStart
  // ---------------------------------------------------------------------

  /** String.prototype.padStart with a one-character filler: never truncates,
      keeps `s` as the suffix and fills only on the left. */
  function PadStart(s: string, width: nat, fill: char): (r: string)
    ensures |r| == if |s| < width then width else |s|
    ensures r[|r| - |s|..] == s
    ensures forall k :: 0 <= k < |r| - |s| ==> r[k] == fill
  {
    if |s| < width then seq(width - |s|, _ => fill) + s else s
  }

  /** Padding a digit string with zeros leaves its value unchanged. */
  lemma ZeroPaddedValue(s: string, width: nat)
    requires AllDigits(s)
    ensures AllDigits(PadStart(s, width, '0'))
    ensures DecimalValue(PadStart(s, width, '0')) == DecimalValue(s)
  {
    var r := PadStart(s, width, '0');
    var z := r[..|r| - |s|];
    assert r == z + s;
    ZerosValue(z);
    DecimalValueAppend(z, s);
  }

  /** Appending a character and widening by one commute with padding. */
  lemma PadStartSnoc(s: string, width: nat, fill: char, c: char)
    ensures PadStart(s, width, fill) + [c] == PadStart(s + [c], width + 1, fill)
  {
    if |s| < width {
      assert seq(width - |s|, _ => fill) == seq(width + 1 - |s + [c]|, _ => fill);
    }
  }

  // ---------------------------------------------------------------------
  // string comparison
  // ---------------------------------------------------------------------

  /** `a < b` on strings: the first differing character decides, and a proper
      prefix is smaller. */
  predicate LexLess(a: string, b: string)
    decreases |a|
  {
    if a == [] then b != []
    else b != [] && (a[0] < b[0] || (a[0] == b[0] && LexLess(a[1..], b[1..])))
  }

  lemma {:induction false} LexLessIrreflexive(a: string)
    ensures !LexLess(a, a)
    decreases |a|
  {
    if a != [] {
      LexLessIrreflexive(a[1..]);
    }
  }

  /** A common prefix does not change the comparison. */
  lemma {:induction false} LexLessCommonPrefix(p: string, a: string, b: string)
    ensures LexLess(p + a, p + b) == LexLess(a, b)
    decreases |p|
  {
    if p != [] {
      assert (p + a)[0] == p[0] == (p + b)[0];
      assert (p + a)[1..] == p[1..] + a;
      assert (p + b)[1..] == p[1..] + b;
      LexLessCommonPrefix(p[1..], a, b);
    } else {
      assert p + a == a && p + b == b;
    }
  }

  /** Two different strings of equal length are compared before any suffix
      is reached. */
  lemma {:induction false} LexLessEqualLength(a: string, b: string, x: string, y: string)
    requires |a| == |b| && a != b
    ensures LexLess(a + x, b + y) == LexLess(a, b)
    decreases |a|
  {
    assert (a + x)[0] == a[0] && (b + y)[0] == b[0];
    if a[0] == b[0] {
      assert a == [a[0]] + a[1..] && b == [b[0]] + b[1..];
      assert a[1..] != b[1..];
      assert (a + x)[1..] == a[1..] + x;
      assert (b + y)[1..] == b[1..] + y;
      LexLessEqualLength(a[1..], b[1..], x, y);
    }
  }

  lemma LeadingDigitDecides(x: nat, y: nat, p: nat, rx: nat, ry: nat)
    requires x < y && rx < p
    ensures x * p + rx < y * p + ry
  {
    assert x * p + rx < (x + 1) * p;
    assert (x + 1) * p <= y * p;
  }

  /** For digit strings of equal length, string order is numeric order. */
  lemma {:induction false} LexLessDigits(a: string, b: string)
    requires |a| == |b| && AllDigits(a) && AllDigits(b)
    ensures LexLess(a, b) <==> DecimalValue(a) < DecimalValue(b)
    decreases |a|
  {
    if a != [] {
      var p := Pow10(|a| - 1);
      DecimalValueCons(a);
      DecimalValueCons(b);
      var da, db := DigitValue(a[0]), DigitValue(b[0]);
      var ra, rb := DecimalValue(a[1..]), DecimalValue(b[1..]);
      assert ra < p && rb < p;
      if da < db {
        assert a[0] < b[0];
        LeadingDigitDecides(da, db, p, ra, rb);
      } else if db < da {
        assert b[0] < a[0];
        LeadingDigitDecides(db, da, p, rb, ra);
      } else {
        assert a[0] == b[0];
        LexLessDigits(a[1..], b[1..]);
      }
    }
  }
}
